=== FILE: README.md ===
# MemoraAI retrieval core in Dafny

MemoraAI answers questions from stored text fragments ("memories"). Each
memory is stored in one Elasticsearch index and tagged with its tenant
(`project_id`). This project models the two pieces of that service that
carry logic:

- The **store client** (`app/elastic_memory.py`). It covers `ensure_index`,
  `upsert_chunk`, `knn_search` and `hybrid_search`. The hybrid search sends a
  search that fuses lexical and kNN results with reciprocal rank fusion
  (RRF). If that request raises, it sends the same search once more without
  fusion. It then projects the hits to `{text, score}`.
- The **`/ingest` and `/ask` handlers** (`app/main.py`). Ingest writes one
  document per chunk. Ask sizes the search and the MMR selection, stops
  early on an empty hit list, and packs the selected documents into a
  context under a token budget.

The cluster is an oracle, `Store = (seq<Request>, Request) -> Reply`. Its
reply may depend on every request issued before, so the model also covers a
store that changes state, such as one that creates an index. Every operation
returns the request log it extended together with a `Result`. A Python
exception becomes `Err(message)`.

Request bodies are typed values (`QueryBody.SearchBody`). `EncodeBody` turns
them into exactly the JSON the Python dict literals denote. A decoder proves
that this encoding loses nothing, so the tenant-filter and size properties,
proved on typed bodies, hold for the JSON actually sent.

These functions are parameters of the model:
- `get_embedding` (may fail), as `App.Embedder`;
- `mmr` (may fail), as `App.Reranker`;
- `chunk_text` (may fail), as `App.Chunker`;
- `approx_token_count`, as `ContextAssembly.TokenCounter`.

No property of their results is relied on. The token counter is total, so
the model assumes it never raises (see "Left out").

Files:
- `wrappers.dfy`: `Option` and `Result`.
- `config.dfy`: the settings that are read.
- `json.dfy`: JSON values and element-wise list encoding.
- `query_body.dfy`: typed bodies, encoder, decoder and round trip.
- `request_bodies.dfy`: the three bodies the source builds and their shape.
- `elastic_memory.dfy`: the store client.
- `context_assembly.dfy`: budget-bounded packing.
- `app.dfy`: the two handlers.

## Model

| member | source | states |
|---|---|---|
| `QueryBody.BodyRoundTrip` | app/elastic_memory.py:80-118 | Decoding the JSON sent for any search body gives back that exact body, so the encoding of size, `_source`, bool clauses and `rank` loses nothing |
| `RequestBodies.PoolSize` | app/elastic_memory.py:81 | The hybrid pool size `max(3k, 15)` is never below 15 and never below 3k, and it equals one of the two |
| `RequestBodies.KnnBodyWellFormed` | app/elastic_memory.py:49-66 | The kNN body's only filter is `term project_id = caller`. It returns `k` hits with kNN `k` equal to `size`, has no rank stage, and `max(20, 5k)` candidates cover `k` for every k |
| `RequestBodies.HybridBodiesWellFormed` | app/elastic_memory.py:80-145 | Both the fused and the fallback body are filtered to the caller's tenant. `size`, kNN `k` and the RRF window all equal `max(3k, 15)`. The RRF constant is 20. `max(60, 10k)` candidates cover the pool for every k |
| `RequestBodies.FallbackIsPrimaryWithoutFusion` | app/elastic_memory.py:126-145 | The fallback body is the fused body minus its `rank` stage, its `_source` list, fuzzy matching and the explicit kNN boost. Nothing else changes: same filter, size, query text and vector |
| `RequestBodies.LexicalWeighsTwiceVector` | app/elastic_memory.py:86-108 | In both bodies at least one `should` clause must match (`minimum_should_match = 1`). The two clauses are a lexical match on `text` and a kNN match on `embedding`, and the lexical boost is twice the vector's effective boost |
| `ElasticMemory.EnsureIndex` | app/elastic_memory.py:15-34 | Only the existence probe and possibly a create are issued. A create with the mapping is issued exactly when the probe answered that the index is missing. An existing index is left untouched. It succeeds exactly when every request it issued was answered, so a failing probe or create is not swallowed |
| `ElasticMemory.EnsureIndexIdempotent` | app/elastic_memory.py:33-34 | Against a store that keeps its indices, a second `ensure_index` after a successful one only probes and succeeds, and never creates again |
| `ElasticMemory.ChunkRoundTrip` | app/elastic_memory.py:38-43 | The stored document holds exactly the chunk's project id, text, tags and embedding |
| `ElasticMemory.TagsOrEmpty` | app/elastic_memory.py:41 | `tags or []` by Python truthiness: a non-empty tag list is stored unchanged, and `None` or an empty list is stored as `[]` |
| `ElasticMemory.UpsertChunk` | app/elastic_memory.py:36-45 | At most one document is written, and it is the chunk's document. On success it was written, it was the last request, and the result is the `_id` of the store's answer to it |
| `ElasticMemory.UpsertChunkAfterEnsureIndex` | app/elastic_memory.py:37-44 | A failing `ensure_index` stops the upsert before any write. Otherwise the write follows the index check directly, with refresh `wait_for`, and `None` tags are stored as `[]`. An answered write yields `res["_id"]` (a `KeyError` if it is missing), and a raising write propagates its error |
| `ElasticMemory.EnsureIndexAnswered` | app/elastic_memory.py:33-34 | A successful `ensure_index` had every request it issued answered |
| `ElasticMemory.UpsertChunkAnswered` | app/elastic_memory.py:37-45 | A successful upsert had every request it issued answered, and its write was answered with an `_id`. A raising request or a missing `_id` therefore fails the upsert |
| `ElasticMemory.UpsertChunkSucceeds` | app/elastic_memory.py:36-45 | Against a store that answers every request, and every write with an `_id`, the upsert succeeds with that `_id` |
| `ElasticMemory.ProjectHits` | app/elastic_memory.py:150 | Projection succeeds exactly when every hit can be read. It keeps order and length: output `i` is hit `i`'s `_source.text` and `_score`. Otherwise the error is that of an unreadable hit |
| `ElasticMemory.FormatScores` | app/elastic_memory.py:154-155 | Formatting a list of scores with `.3f` succeeds exactly when every score is a number or a boolean; otherwise the error is that of one score that cannot be formatted |
| `ElasticMemory.LogSummary` | app/elastic_memory.py:153-155 | The printed summary fails exactly when one of the first five results has a score that is not a number or a boolean; otherwise the results pass through unchanged |
| `ElasticMemory.ReadHybrid` | app/elastic_memory.py:149-157 | An answered hybrid response yields its results exactly when the lenient read and the projection succeed and the first five scores can be formatted, and then the results are the projected hits |
| `ElasticMemory.LenientHitList` | app/elastic_memory.py:149 | A response without `hits`, or whose `hits` object lacks `hits`, reads as no hits. Wherever the strict `res["hits"]["hits"]` reading succeeds, this reading agrees with it |
| `ElasticMemory.MissingHitsReadsAsEmpty` | app/elastic_memory.py:68-69 | On a response without a `hits` key, hybrid search projects to an empty list while kNN search raises |
| `ElasticMemory.KnnSearch` | app/elastic_memory.py:47-69 | After a successful index check, exactly one kNN search is sent, and its answer is read strictly and projected. A raising search propagates its error. A failing index check sends nothing |
| `ElasticMemory.HybridSearch` | app/elastic_memory.py:71-157 | After a successful index check, the fused search is sent. An answer is read as `ElasticMemory.ReadHybrid` reads it, including the printed summary, and a failure while reading it is not retried. Only if the fused search raised is the fallback sent. A raising fallback propagates its error |
| `ElasticMemory.FallbackOnlyOnFailure` | app/elastic_memory.py:121-146 | The first request after the index check is the fused search. The fallback appears among the requests exactly when the fused search raised |
| `ElasticMemory.KnnSearchScoped` | app/elastic_memory.py:53 | Every search `knn_search` sends decodes to a body filtered to the caller's tenant, with size `k` and candidates covering `k` |
| `ElasticMemory.HybridSearchScoped` | app/elastic_memory.py:85 | Every search `hybrid_search` sends, fused or fallback, decodes to a body filtered to the caller's tenant, with size `max(3k, 15)` and a consistent pool |
| `App.UpsertEach` | app/main.py:27-29 | The loop only appends to the request log, and it succeeds only if every request it issued was answered and every write got an `_id`. So a raising write, or one answered without `_id`, fails the loop. `App.UpsertEachStopsOnEmbedding` covers a failed embedding, `App.UpsertEachWrites` what is written and `App.UpsertEachSucceeds` when the loop succeeds |
| `App.UpsertEachSucceeds` | app/main.py:27-29 | Against a store that answers everything, the loop over the chunks succeeds once every chunk embeds |
| `App.UpsertEachStopsOnEmbedding` | app/main.py:27-28 | A chunk whose embedding fails makes the loop fail, whatever the store answers |
| `App.IngestSucceeds` | app/main.py:25-30 | Against a store that answers everything, ingest succeeds exactly when chunking and every chunk's embedding succeed, and it then reports `len(chunks)` |
| `App.UpsertEachWrites` | app/main.py:27-29 | The upsert loop writes chunk `i`'s document as its `i`-th document, and each such chunk was embedded. It writes no other document, and on success it writes one per chunk |
| `App.Ingest` | app/main.py:25-30 | A failing chunker fails ingest before anything is written. Ingest reports `len(chunks)`, and only if every request it issued was answered and every write got an `_id`, so an exception from `upsert_chunk` fails it. The documents written follow chunk order, one per chunk on success, each with the request's project id and `tags or []` |
| `App.IngestWritesOnlyOwnTenant` | app/main.py:26-29 | Every document ingest writes decodes to a chunk of the requesting tenant, at that chunk's position, with that chunk's text and the request's tags |
| `App.SearchK` | app/main.py:41 | The k given to hybrid search is at least 15 and at least the requested k, and it equals one of the two |
| `App.EmbedAll` | app/main.py:50 | Every candidate is embedded, in order. The list fails exactly when some candidate's embedding fails |
| `App.SelectionSize` | app/main.py:51 | The size asked of MMR is at most 10 and at most the pool size, and it equals one of the two |
| `App.PyIndex` | app/main.py:52 | A Python list index is valid exactly when it lies in `[-n, n)`. A negative index counts from the end |
| `App.Select` | app/main.py:52 | Selection succeeds exactly when every MMR index is a valid Python index. It then returns one document per index, in MMR order |
| `App.Ask` | app/main.py:38-63 | Search k is `max(15, k)`. No hits gives context `""`, `used` 0, an empty selection, no MMR call and only the query embedded. Otherwise MMR is asked for `min(10, n)` (between 1 and 10), the selection is exactly the candidates at the indices MMR returns (Python negative indexing included), and the outcome fails exactly on a failed embedding, a failing MMR call or an out-of-range MMR index. The parts are the greedy packing of the selection, the context joins them with a blank line, and `used` is the selection's length, never below the number of parts |
| `ContextAssembly.Join` | app/main.py:59-63 | `sep.join(parts)`: empty for no parts; otherwise it starts with the first part and its length is the parts' total length plus one separator between each adjacent pair |
| `ContextAssembly.PackContext` | app/main.py:57-62 | The kept parts are a prefix of the selection. Each kept item passed `count("\n".join(kept_before)) + count(item) < budget`, and if any item was left out, the first left-out item failed that check |
| `ContextAssembly.KeptItemsFit` | app/main.py:59-60 | Every kept item passed the budget check against the documents before it |
| `ContextAssembly.GreedyPackingUnique` | app/main.py:58-62 | Only one prefix meets the three packing rules, so they define the loop's result |
| `ContextAssembly.NothingKeptAfterFirstMiss` | app/main.py:61-62 | Once an item fails the check against the items before it, neither it nor any later item is kept, however small |
| `ContextAssembly.FirstMissGivesEmptyContext` | app/main.py:58-63 | If the first selected item alone fails the check, nothing is kept and the context is the empty string |
| `ContextAssembly.ContextMayReachBudget` | app/main.py:59-63 | With a length-based count and budget 4, both `"a"` and `"b"` pass the newline-joined check, yet the blank-line-joined context counts 4. The model therefore never claims that the final context is under budget |

## Left out

- The Elasticsearch client and transport are left out: its construction, API key and 30-second timeout. The cluster is the `Store` oracle.
- The `print` diagnostics are left out, except the hybrid search summary. They only log. The summary formats the first five scores with `.3f`, which raises on a score that is not a number, so it is modelled as `ElasticMemory.LogSummary`.
- ElasticMemory.LogSummary: treats every integer score as formattable, although Python raises `OverflowError` for an integer too large for a double; JSON numbers of that size are outside this model.
- `app/vertex_ai.py` is left out: the Vertex AI initialisation, its `_initialized` flag and its race under concurrent first use. Embedding is the `Embedder` parameter.
- The prompt text, `generate_text`, `tokens_estimate` and the HTTP 500 mapping of generation errors in `/ask` are left out. So are the `/health` route, FastAPI routing, `.env` and settings loading. The settings become `Config.Settings`.
- The MMR algorithm, `approx_token_count` and `chunk_text` are parameters. Their code is not part of this model, so nothing is assumed about their results. `mmr` and `chunk_text` may fail, and a failure propagates.
- App.Ask: assumes `approx_token_count` never raises, because `ContextAssembly.TokenCounter` is a total function from text to an integer.
- App.Ask: does not bound the selection by the size asked of MMR, nor promise distinct or best-first picks, because those depend on `mmr`, which is not part of this model.
- Scores are never compared or ordered, and no ordering over them is stated. Only their kind is read, when the hybrid search summary formats them.
- Default arguments (`k=8`, `tags=None`) are not modelled; every caller passes all arguments.
- Hits whose `_source.text` is not a JSON string are reported as an error during projection. Python would carry such a value on and fail later, or not at all.
- The decoders ignore extra keys in an object. They are used only to read back bodies this model encodes.
- Behaviour of the code worth noting:
  - A failing index create propagates. It is not swallowed as "already exists".
  - A failing retrieval fails `/ask`. It does not continue with an empty context.
  - `used` counts the selected documents, not the parts kept in the context.
  - The budget check joins with one newline, while the context joins with a blank line.

=== FILE: app.dfy ===
/** The `/ingest` and `/ask` handlers of app/main.py, up to the point where
    the prompt is built. The embedding model, the MMR reranker, the chunker
    and the token counter are parameters: their code is not part of this
    model. */
module App {
  import opened Wrappers
  import opened Config
  import opened ElasticMemory
  import opened ContextAssembly

  type Vector = seq<real>

  /** `get_embedding`: may raise. */
  type Embedder = string -> Result<Vector>

  /** `chunk_text`: may raise. */
  type Chunker = string -> Result<seq<string>>

  /** `mmr(query_vec, docs, doc_vecs, k)`: the indices it selects, in
      selection order; may raise. */
  type Reranker = (Vector, seq<string>, seq<Vector>, int) -> Result<seq<int>>

  datatype IngestRequest = IngestRequest(projectId: string, text: string, tags: Option<seq<string>>)

  datatype AskRequest = AskRequest(projectId: string, query: string, k: int)

  /** What `/ask` has assembled before it builds the prompt: the context, the
      `used` count it reports, the selected documents and the parts kept,
      plus the texts it embedded and the size it asked MMR for (none when
      MMR was not invoked). */
  datatype Retrieval = Retrieval(
    context: string,
    used: nat,
    selected: seq<string>,
    parts: seq<string>,
    embedded: seq<string>,
    mmrSize: Option<int>)

  // ---------------------------------------------------------------------
  // /ingest
  // ---------------------------------------------------------------------

  /** The document that writes chunk `text` for a tenant. */
  function ChunkDocument(projectId: string, text: string, tags: seq<string>, embedding: Vector): Json.Json {
    EncodeChunk(Chunk(projectId, text, tags, embedding))
  }

  /** Embed and upsert each chunk in turn, stopping at the first failure. */
  function UpsertEach(s: Settings, store: Store, log: seq<Request>, embed: Embedder,
                      projectId: string, tags: seq<string>, chunks: seq<string>): (r: Run<()>)
    ensures Extends(r.log, log)
    ensures r.outcome.Ok? ==> AllAnswered(store, r.log, |log|)
    decreases |chunks|
  {
    if chunks == [] then Run(log, Ok(()))
    else match embed(chunks[0])
      case Err(m) => Run(log, Err(m))
      case Ok(v) =>
        var u := UpsertChunk(s, store, log, projectId, chunks[0], v, Some(tags));
        if u.outcome.Err? then Run(u.log, Err(u.outcome.error))
        else
          var rest := UpsertEach(s, store, u.log, embed, projectId, tags, chunks[1..]);
          UpsertChunkAnswered(s, store, log, projectId, chunks[0], v, Some(tags));
          if rest.outcome.Ok? then AllAnsweredSplit(store, log, u.log, rest.log); rest else rest
  }

  /** Against a store that answers everything, the upsert loop succeeds
      once every chunk embeds. */
  lemma {:induction false} UpsertEachSucceeds(s: Settings, store: Store, log: seq<Request>, embed: Embedder,
                                              projectId: string, tags: seq<string>, chunks: seq<string>)
    requires AnswersEverything(store)
    requires forall i :: 0 <= i < |chunks| ==> embed(chunks[i]).Ok?
    ensures UpsertEach(s, store, log, embed, projectId, tags, chunks).outcome == Ok(())
    decreases |chunks|
  {
    if chunks != [] {
      var v := embed(chunks[0]).value;
      UpsertChunkSucceeds(s, store, log, projectId, chunks[0], v, Some(tags));
      var u := UpsertChunk(s, store, log, projectId, chunks[0], v, Some(tags));
      assert forall i :: 0 <= i < |chunks[1..]| ==> chunks[1..][i] == chunks[i + 1];
      UpsertEachSucceeds(s, store, u.log, embed, projectId, tags, chunks[1..]);
    }
  }

  /** One turn of the upsert loop: a failed upsert ends it, a successful
      one continues with the remaining chunks. */
  lemma UpsertEachStep(s: Settings, store: Store, log: seq<Request>, embed: Embedder,
                       projectId: string, tags: seq<string>, chunks: seq<string>)
    requires chunks != [] && embed(chunks[0]).Ok?
    ensures var u := UpsertChunk(s, store, log, projectId, chunks[0], embed(chunks[0]).value, Some(tags));
            UpsertEach(s, store, log, embed, projectId, tags, chunks).outcome
            == if u.outcome.Err? then Err(u.outcome.error)
               else UpsertEach(s, store, u.log, embed, projectId, tags, chunks[1..]).outcome
  {
  }

  /** A chunk whose embedding fails makes the upsert loop fail, whatever
      the store answers. */
  lemma {:induction false} UpsertEachStopsOnEmbedding(s: Settings, store: Store, log: seq<Request>, embed: Embedder,
                                                      projectId: string, tags: seq<string>, chunks: seq<string>, i: nat)
    requires i < |chunks| && embed(chunks[i]).Err?
    ensures UpsertEach(s, store, log, embed, projectId, tags, chunks).outcome.Err?
    decreases |chunks|
  {
    if embed(chunks[0]).Ok? {
      assert i > 0;
      var u := UpsertChunk(s, store, log, projectId, chunks[0], embed(chunks[0]).value, Some(tags));
      UpsertEachStep(s, store, log, embed, projectId, tags, chunks);
      if u.outcome.Ok? {
        var rest := chunks[1..];
        assert rest[i - 1] == chunks[i];
        UpsertEachStopsOnEmbedding(s, store, u.log, embed, projectId, tags, rest, i - 1);
      }
    }
  }

  /** The documents the upsert loop writes: chunk `i` (embedded) is the
      `i`-th document, nothing else is written, and on success every chunk is. */
  predicate WritesChunks(written: seq<Json.Json>, embed: Embedder, projectId: string, tags: seq<string>, chunks: seq<string>) {
    && |written| <= |chunks|
    && (forall i :: 0 <= i < |written| ==>
          embed(chunks[i]).Ok? && written[i] == ChunkDocument(projectId, chunks[i], tags, embed(chunks[i]).value))
  }

  lemma WritesChunksCons(later: seq<Json.Json>, embed: Embedder, projectId: string, tags: seq<string>, chunks: seq<string>)
    requires chunks != [] && embed(chunks[0]).Ok?
    requires WritesChunks(later, embed, projectId, tags, chunks[1..])
    ensures WritesChunks([ChunkDocument(projectId, chunks[0], tags, embed(chunks[0]).value)] + later, embed, projectId, tags, chunks)
  {
    var all := [ChunkDocument(projectId, chunks[0], tags, embed(chunks[0]).value)] + later;
    forall i | 1 <= i < |all|
      ensures embed(chunks[i]).Ok? && all[i] == ChunkDocument(projectId, chunks[i], tags, embed(chunks[i]).value)
    {
      assert all[i] == later[i - 1];
      assert chunks[1..][i - 1] == chunks[i];
    }
  }

  /** Splits the log of a successful first upsert off the rest of the loop. */
  lemma UpsertEachSplit(s: Settings, store: Store, log: seq<Request>, embed: Embedder,
                        projectId: string, tags: seq<string>, chunks: seq<string>)
    requires chunks != [] && embed(chunks[0]).Ok?
    requires UpsertChunk(s, store, log, projectId, chunks[0], embed(chunks[0]).value, Some(tags)).outcome.Ok?
    ensures var u := UpsertChunk(s, store, log, projectId, chunks[0], embed(chunks[0]).value, Some(tags));
            var r := UpsertEach(s, store, log, embed, projectId, tags, chunks);
            var rest := UpsertEach(s, store, u.log, embed, projectId, tags, chunks[1..]);
            && r == rest
            && Documents(r.log[|log|..]) == [ChunkDocument(projectId, chunks[0], tags, embed(chunks[0]).value)] + Documents(rest.log[|u.log|..])
  {
    assert TagsOrEmpty(Some(tags)) == tags;
    var u := UpsertChunk(s, store, log, projectId, chunks[0], embed(chunks[0]).value, Some(tags));
    var rest := UpsertEach(s, store, u.log, embed, projectId, tags, chunks[1..]);
    ExtendsSplit(log, u.log, rest.log);
    DocumentsAppend(u.log[|log|..], rest.log[|u.log|..]);
  }

  lemma {:induction false} UpsertEachWrites(s: Settings, store: Store, log: seq<Request>, embed: Embedder,
                                            projectId: string, tags: seq<string>, chunks: seq<string>)
    ensures var r := UpsertEach(s, store, log, embed, projectId, tags, chunks);
            && WritesChunks(Documents(r.log[|log|..]), embed, projectId, tags, chunks)
            && (r.outcome.Ok? ==> |Documents(r.log[|log|..])| == |chunks|)
    decreases |chunks|
  {
    var r := UpsertEach(s, store, log, embed, projectId, tags, chunks);
    if chunks == [] || embed(chunks[0]).Err? {
      assert r.log[|log|..] == [];
    } else {
      assert TagsOrEmpty(Some(tags)) == tags;
      var u := UpsertChunk(s, store, log, projectId, chunks[0], embed(chunks[0]).value, Some(tags));
      if u.outcome.Ok? {
        UpsertEachSplit(s, store, log, embed, projectId, tags, chunks);
        UpsertEachWrites(s, store, u.log, embed, projectId, tags, chunks[1..]);
        var rest := UpsertEach(s, store, u.log, embed, projectId, tags, chunks[1..]);
        WritesChunksCons(Documents(rest.log[|u.log|..]), embed, projectId, tags, chunks);
      }
    }
  }

  /** `/ingest`: chunk the text, write one document per chunk, report the
      number of chunks. */
  function Ingest(s: Settings, store: Store, log: seq<Request>, chunker: Chunker, embed: Embedder,
                  req: IngestRequest): (r: Run<nat>)
    ensures Extends(r.log, log)
    ensures chunker(req.text).Err? ==> r == Run(log, Err(chunker(req.text).error))
    ensures r.outcome.Ok? ==> chunker(req.text).Ok? && r.outcome.value == |chunker(req.text).value|
    ensures r.outcome.Ok? ==> AllAnswered(store, r.log, |log|)
    ensures chunker(req.text).Ok? ==>
            var chunks := chunker(req.text).value;
            var written := Documents(r.log[|log|..]);
            && (forall i :: 0 <= i < |written| ==>
                  i < |chunks| && embed(chunks[i]).Ok?
                  && written[i] == ChunkDocument(req.projectId, chunks[i], TagsOrEmpty(req.tags), embed(chunks[i]).value))
            && (r.outcome.Ok? ==> |written| == |chunks|)
  {
    match chunker(req.text)
    case Err(m) => Run(log, Err(m))
    case Ok(chunks) =>
      var u := UpsertEach(s, store, log, embed, req.projectId, TagsOrEmpty(req.tags), chunks);
      UpsertEachWrites(s, store, log, embed, req.projectId, TagsOrEmpty(req.tags), chunks);
      Run(u.log, if u.outcome.Ok? then Ok(|chunks|) else Err(u.outcome.error))
  }

  /** Against a store that answers everything, `/ingest` reports the number
      of chunks exactly when chunking and every chunk's embedding succeed. */
  lemma IngestSucceeds(s: Settings, store: Store, log: seq<Request>, chunker: Chunker, embed: Embedder,
                       req: IngestRequest)
    requires AnswersEverything(store)
    ensures Ingest(s, store, log, chunker, embed, req).outcome.Ok?
            <==> chunker(req.text).Ok? && forall i :: 0 <= i < |chunker(req.text).value| ==> embed(chunker(req.text).value[i]).Ok?
    ensures Ingest(s, store, log, chunker, embed, req).outcome.Ok? ==>
            Ingest(s, store, log, chunker, embed, req).outcome == Ok(|chunker(req.text).value|)
  {
    if chunker(req.text).Ok? {
      var chunks := chunker(req.text).value;
      if forall i :: 0 <= i < |chunks| ==> embed(chunks[i]).Ok? {
        UpsertEachSucceeds(s, store, log, embed, req.projectId, TagsOrEmpty(req.tags), chunks);
      } else {
        var i :| 0 <= i < |chunks| && embed(chunks[i]).Err?;
        UpsertEachStopsOnEmbedding(s, store, log, embed, req.projectId, TagsOrEmpty(req.tags), chunks, i);
      }
    }
  }

  /** Every document `/ingest` writes belongs to the requesting tenant and
      carries that chunk's text and the request's tags (empty when absent). */
  lemma IngestWritesOnlyOwnTenant(s: Settings, store: Store, log: seq<Request>, chunker: Chunker, embed: Embedder,
                                  req: IngestRequest)
    ensures var written := Documents(Ingest(s, store, log, chunker, embed, req).log[|log|..]);
            forall i :: 0 <= i < |written| ==>
              chunker(req.text).Ok? && i < |chunker(req.text).value|
              && DecodeChunk(written[i]).Some?
              && DecodeChunk(written[i]).value.projectId == req.projectId
              && DecodeChunk(written[i]).value.text == chunker(req.text).value[i]
              && DecodeChunk(written[i]).value.tags == TagsOrEmpty(req.tags)
  {
    var r := Ingest(s, store, log, chunker, embed, req);
    match chunker(req.text)
    case Err(_) =>
      assert r.log[|log|..] == [];
    case Ok(chunks) =>
      var u := UpsertEach(s, store, log, embed, req.projectId, TagsOrEmpty(req.tags), chunks);
      UpsertEachWrites(s, store, log, embed, req.projectId, TagsOrEmpty(req.tags), chunks);
      WrittenChunksDecode(Documents(u.log[|log|..]), embed, req.projectId, TagsOrEmpty(req.tags), chunks);
  }

  lemma WrittenChunksDecode(written: seq<Json.Json>, embed: Embedder, projectId: string, tags: seq<string>,
                            chunks: seq<string>)
    requires WritesChunks(written, embed, projectId, tags, chunks)
    ensures forall i :: 0 <= i < |written| ==>
              i < |chunks| && embed(chunks[i]).Ok?
              && DecodeChunk(written[i]) == Some(Chunk(projectId, chunks[i], tags, embed(chunks[i]).value))
  {
    forall i | 0 <= i < |written|
      ensures DecodeChunk(written[i]) == Some(Chunk(projectId, chunks[i], tags, embed(chunks[i]).value))
    {
      ChunkRoundTrip(Chunk(projectId, chunks[i], tags, embed(chunks[i]).value));
    }
  }

  // ---------------------------------------------------------------------
  // /ask
  // ---------------------------------------------------------------------

  /** `max(15, req.k)`: the search is always asked for at least 15. */
  function SearchK(k: int): (n: int)
    ensures n >= 15 && n >= k
    ensures n == 15 || n == k
  {
    if 15 >= k then 15 else k
  }

  /** `min(10, len(docs))`: never more than 10 nor more than the pool. */
  function SelectionSize(pool: nat): (n: nat)
    ensures n <= 10 && n <= pool
    ensures n == 10 || n == pool
  {
    if 10 <= pool then 10 else pool
  }

  function Texts(hits: seq<Hit>): seq<string> {
    seq(|hits|, i requires 0 <= i < |hits| => hits[i].text)
  }

  /** `[get_embedding(d) for d in docs]`: every document embedded, in order;
      the first failure propagates. */
  function EmbedAll(embed: Embedder, docs: seq<string>): (r: Result<seq<Vector>>)
    ensures r.Ok? <==> forall i :: 0 <= i < |docs| ==> embed(docs[i]).Ok?
    ensures r.Ok? ==> |r.value| == |docs| && forall i :: 0 <= i < |docs| ==> r.value[i] == embed(docs[i]).value
  {
    if docs == [] then Ok([])
    else match (embed(docs[0]), EmbedAll(embed, docs[1..]))
      case (Err(m), _) => Err(m)
      case (Ok(_), Err(m)) => Err(m)
      case (Ok(v), Ok(rest)) => Ok([v] + rest)
  }

  /** Python's `docs[i]` on a list of length `n`: negative indices count from
      the end; anything else out of range raises IndexError. */
  function PyIndex(n: nat, i: int): (r: Option<nat>)
    ensures r.Some? <==> -(n as int) <= i < n
    ensures r.Some? ==> r.value < n && (r.value == i || r.value == i + n)
  {
    if 0 <= i < n then Some(i) else if -(n as int) <= i < 0 then Some(n + i) else None
  }

  /** `[docs[i] for i in sel_idx]`. */
  function Select(docs: seq<string>, idx: seq<int>): (r: Result<seq<string>>)
    ensures r.Ok? <==> forall j :: 0 <= j < |idx| ==> PyIndex(|docs|, idx[j]).Some?
    ensures r.Ok? ==> |r.value| == |idx|
    ensures r.Ok? ==> forall j :: 0 <= j < |idx| ==> r.value[j] == docs[PyIndex(|docs|, idx[j]).value]
  {
    if idx == [] then Ok([])
    else match (PyIndex(|docs|, idx[0]), Select(docs, idx[1..]))
      case (None, _) => Err("IndexError: list index out of range")
      case (Some(_), Err(m)) => Err(m)
      case (Some(i), Ok(rest)) => Ok([docs[i]] + rest)
  }

  /** `/ask` up to the prompt: embed the query, run the hybrid search with
      `k = max(15, req.k)`, rerank at most ten documents with MMR, and pack
      the selection into a context under the token budget. */
  method Ask(s: Settings, store: Store, log: seq<Request>, embed: Embedder, mmr: Reranker, count: TokenCounter,
             req: AskRequest) returns (r: Run<Retrieval>)
    ensures embed(req.query).Err? ==> r == Run(log, Err(embed(req.query).error))
    ensures embed(req.query).Ok? ==>
      var qv := embed(req.query).value;
      var found := HybridSearch(s, store, log, req.projectId, req.query, qv, SearchK(req.k));
      && r.log == found.log
      && (found.outcome.Err? ==> r.outcome == Err(found.outcome.error))
      && (found.outcome == Ok([]) ==> r.outcome == Ok(Retrieval("", 0, [], [], [req.query], None)))
      && (found.outcome.Ok? && found.outcome.value != [] ==>
            var docs := Texts(found.outcome.value);
            var n := SelectionSize(|docs|);
            && (r.outcome.Ok? <==>
                  && EmbedAll(embed, docs).Ok?
                  && mmr(qv, docs, EmbedAll(embed, docs).value, n).Ok?
                  && forall j :: 0 <= j < |mmr(qv, docs, EmbedAll(embed, docs).value, n).value| ==>
                       PyIndex(|docs|, mmr(qv, docs, EmbedAll(embed, docs).value, n).value[j]).Some?)
            && (r.outcome.Ok? ==>
                  && r.outcome.value.embedded == [req.query] + docs
                  && r.outcome.value.mmrSize == Some(n) && 1 <= n
                  && r.outcome.value.selected == Select(docs, mmr(qv, docs, EmbedAll(embed, docs).value, n).value).value))
    ensures r.outcome.Ok? ==>
      var v := r.outcome.value;
      && IsGreedyPacking(count, s.tokenBudget, v.selected, v.parts)
      && v.context == Join(ContextSeparator, v.parts)
      && v.used == |v.selected| && v.used >= |v.parts|
  {
    var q := embed(req.query);
    if q.Err? {
      return Run(log, Err(q.error));
    }
    var found := HybridSearch(s, store, log, req.projectId, req.query, q.value, SearchK(req.k));
    if found.outcome.Err? {
      return Run(found.log, Err(found.outcome.error));
    }
    var docs := Texts(found.outcome.value);
    if docs == [] {
      return Run(found.log, Ok(Retrieval("", 0, [], [], [req.query], None)));
    }
    var vecs := EmbedAll(embed, docs);
    if vecs.Err? {
      return Run(found.log, Err(vecs.error));
    }
    var n := SelectionSize(|docs|);
    var idx := mmr(q.value, docs, vecs.value, n);
    if idx.Err? {
      return Run(found.log, Err(idx.error));
    }
    var selected := Select(docs, idx.value);
    if selected.Err? {
      return Run(found.log, Err(selected.error));
    }
    var parts := PackContext(count, s.tokenBudget, selected.value);
    r := Run(found.log, Ok(Retrieval(Join(ContextSeparator, parts), |selected.value|, selected.value, parts,
                                     [req.query] + docs, Some(n))));
  }
}

=== FILE: config.dfy ===
/** The settings object the service reads once at start-up. Only the three
    values the modelled code consults are kept. */
module Config {

  datatype Settings = Settings(
    elasticIndex: string,   // name of the single index holding every tenant's chunks
    embedDims: int,         // dimensionality declared for the dense-vector field
    tokenBudget: int        // budget the context assembler packs against
  )
}

=== FILE: context_assembly.dfy ===
/** Budget-bounded context assembly from the `/ask` handler (app/main.py):
    selected documents are appended in order while the token count of the
    parts kept so far, joined by one newline, plus the next document's count
    stays under the budget; the first document that does not fit ends the
    assembly. The kept parts are then joined by a blank line. */
module ContextAssembly {

  /** `approx_token_count`, whose definition is not part of this model. */
  type TokenCounter = string -> int

  /** Separator the budget check joins with. */
  const CheckSeparator := "\n"
  /** Separator the final context joins with. */
  const ContextSeparator := "\n\n"

  /** The summed lengths of `parts`. */
  function TotalLength(parts: seq<string>): nat {
    if parts == [] then 0 else |parts[0]| + TotalLength(parts[1..])
  }

  /** Python's `sep.join(parts)`: the parts' characters with one separator
      between each adjacent pair, starting with the first part. */
  function Join(sep: string, parts: seq<string>): (s: string)
    ensures parts == [] ==> s == ""
    ensures parts != [] ==> |s| + |sep| == TotalLength(parts) + |parts| * |sep|
    ensures parts != [] ==> s[..|parts[0]|] == parts[0]
  {
    if parts == [] then ""
    else if |parts| == 1 then parts[0]
    else parts[0] + sep + Join(sep, parts[1..])
  }

  /** The budget check made before appending `d` to the parts kept so far. */
  predicate Fits(count: TokenCounter, budget: int, kept: seq<string>, d: string) {
    count(Join(CheckSeparator, kept)) + count(d) < budget
  }

  /** `parts` is what greedy assembly keeps from `docs`: a prefix of it, each
      kept item having passed the check against the items kept before it,
      and, if something was left out, the first left-out item failing it. */
  predicate IsGreedyPacking(count: TokenCounter, budget: int, docs: seq<string>, parts: seq<string>) {
    && |parts| <= |docs|
    && parts == docs[..|parts|]
    && (forall j :: 0 <= j < |parts| ==> Fits(count, budget, parts[..j], parts[j]))
    && (|parts| < |docs| ==> !Fits(count, budget, parts, docs[|parts|]))
  }

  /** The assembly loop: stop at the first document that does not fit. */
  method PackContext(count: TokenCounter, budget: int, selected: seq<string>) returns (parts: seq<string>)
    ensures IsGreedyPacking(count, budget, selected, parts)
  {
    parts := [];
    var i := 0;
    while i < |selected|
      invariant 0 <= i <= |selected|
      invariant parts == selected[..i]
      invariant forall j :: 0 <= j < i ==> Fits(count, budget, parts[..j], parts[j])
    {
      var d := selected[i];
      if count(Join(CheckSeparator, parts)) + count(d) < budget {
        assert parts + [d] == selected[..i + 1];
        assert (parts + [d])[..i] == parts;
        assert forall j :: 0 <= j < i ==> (parts + [d])[..j] == parts[..j];
        parts := parts + [d];
        i := i + 1;
      } else {
        break;
      }
    }
  }

  /** Every kept item passed the check against the documents before it. */
  lemma KeptItemsFit(count: TokenCounter, budget: int, docs: seq<string>, parts: seq<string>, j: nat)
    requires IsGreedyPacking(count, budget, docs, parts)
    requires j < |parts|
    ensures Fits(count, budget, docs[..j], docs[j])
  {
    assert parts[..j] == docs[..j];
    assert parts[j] == docs[j];
  }

  /** The greedy packing of a selection is unique, so any assembly meeting
      the three rules keeps exactly the items the loop keeps. */
  lemma GreedyPackingUnique(count: TokenCounter, budget: int, docs: seq<string>, p1: seq<string>, p2: seq<string>)
    requires IsGreedyPacking(count, budget, docs, p1)
    requires IsGreedyPacking(count, budget, docs, p2)
    ensures p1 == p2
  {
    if |p1| < |p2| {
      KeptItemsFit(count, budget, docs, p2, |p1|);
    } else if |p2| < |p1| {
      KeptItemsFit(count, budget, docs, p1, |p2|);
    }
  }

  /** Once an item fails the check against the items before it, neither it
      nor any later item is kept, however small. */
  lemma NothingKeptAfterFirstMiss(count: TokenCounter, budget: int, docs: seq<string>, parts: seq<string>, j: nat)
    requires IsGreedyPacking(count, budget, docs, parts)
    requires j < |docs| && !Fits(count, budget, docs[..j], docs[j])
    ensures |parts| <= j
  {
    if |parts| > j {
      KeptItemsFit(count, budget, docs, parts, j);
    }
  }

  /** If the first selected item alone does not fit, the context is empty. */
  lemma FirstMissGivesEmptyContext(count: TokenCounter, budget: int, docs: seq<string>, parts: seq<string>)
    requires IsGreedyPacking(count, budget, docs, parts)
    requires docs != [] && !Fits(count, budget, [], docs[0])
    ensures parts == []
    ensures Join(ContextSeparator, parts) == ""
  {
    assert docs[..0] == [];
    NothingKeptAfterFirstMiss(count, budget, docs, parts, 0);
  }

  function Length(s: string): int { |s| }

  /** The check joins with one newline but the context with two, so the
      finished context need not be under budget: with a length-based count
      and budget 4, both of "a" and "b" pass the check, yet "a\n\nb" counts 4. */
  lemma ContextMayReachBudget()
    ensures IsGreedyPacking(Length, 4, ["a", "b"], ["a", "b"])
    ensures Length(Join(ContextSeparator, ["a", "b"])) >= 4
  {
    var parts := ["a", "b"];
    assert parts[..0] == [] && parts[..1] == ["a"];
    assert Join(CheckSeparator, ["a"]) == "a";
    assert Join(ContextSeparator, parts) == "a" + "\n\n" + "b";
  }
}

=== FILE: elastic_memory.dfy ===
/** The store client of app/elastic_memory.py. The Elasticsearch cluster is an
    oracle: given the requests issued so far and the next request, it either
    raises or answers with a JSON payload. Every operation returns the
    request log it extended and its outcome. */
module ElasticMemory {
  import opened Wrappers
  import opened Json
  import opened Config
  import opened QueryBody
  import opened RequestBodies

  datatype Request =
    | IndexExists(index: string)
    | CreateIndex(index: string, mapping: Json)
    | IndexDocument(index: string, document: Json, refresh: string)
    | Search(index: string, body: Json)

  datatype Reply = Raised(message: string) | Answer(payload: Json)

  /** The cluster: its reply to a request may depend on every earlier request. */
  type Store = (seq<Request>, Request) -> Reply

  /** Requests issued (the whole log, oldest first) and the outcome. */
  datatype Run<+T> = Run(log: seq<Request>, outcome: Result<T>)

  /** One chunk as stored: tenant, text, tags and embedding. */
  datatype Chunk = Chunk(projectId: string, text: string, tags: seq<string>, embedding: seq<real>)

  /** A projected search hit: the stored text and the store's score. Scores
      are never compared or ordered; only their kind matters, when the
      hybrid search summary formats them. */
  datatype Hit = Hit(text: string, score: Json)

  predicate Extends(log': seq<Request>, log: seq<Request>) {
    |log| <= |log'| && log'[..|log|] == log
  }

  /** What a log extended by `added` added since an earlier state. */
  lemma AppendSince(a: seq<Request>, b: seq<Request>, added: seq<Request>)
    requires Extends(b, a)
    ensures (b + added)[|a|..] == b[|a|..] + added
  {
  }

  /** What a log extended twice added since its first state. */
  lemma ExtendsSplit(a: seq<Request>, b: seq<Request>, c: seq<Request>)
    requires Extends(b, a) && Extends(c, b)
    ensures Extends(c, a)
    ensures c[|a|..] == b[|a|..] + c[|b|..]
  {
    assert c[..|b|] == b;
    assert c[|a|..|b|] == b[|a|..];
    assert c[|a|..] == c[|a|..|b|] + c[|b|..];
  }

  /** The documents written by a sequence of requests, in order. */
  function Documents(reqs: seq<Request>): seq<Json> {
    if reqs == [] then []
    else (if reqs[0].IndexDocument? then [reqs[0].document] else []) + Documents(reqs[1..])
  }

  /** No request in `reqs` writes a document or searches. */
  predicate NoWrites(reqs: seq<Request>) {
    forall r :: r in reqs ==> !r.IndexDocument? && !r.Search?
  }

  // ---------------------------------------------------------------------
  // ensure_index
  // ---------------------------------------------------------------------

  function KeywordField(): Json { Obj(map["type" := Str("keyword")]) }

  function IndexMapping(dims: int): Json {
    Obj(map["mappings" := Obj(map["properties" := Obj(map[
      "project_id" := KeywordField(),
      "text" := Obj(map["type" := Str("text")]),
      "chunk_id" := KeywordField(),
      "tags" := KeywordField(),
      "embedding" := Obj(map["type" := Str("dense_vector"), "dims" := Int(dims), "index" := Bool(true), "similarity" := Str("cosine")]),
      "created_at" := Obj(map["type" := Str("date")])])])])
  }

  /** The index is reported present by an exists probe that answered truthy. */
  predicate ReportsPresent(reply: Reply) {
    reply.Answer? && Truthy(reply.payload)
  }

  /** Probe for the index and create it only when the probe says it is
      missing. Neither a failing probe nor a failing create is swallowed. */
  function EnsureIndex(s: Settings, store: Store, log: seq<Request>): (r: Run<()>)
    ensures Extends(r.log, log) && NoWrites(r.log[|log|..])
    ensures r.log[|log|..] == [IndexExists(s.elasticIndex)]
            || r.log[|log|..] == [IndexExists(s.elasticIndex), CreateIndex(s.elasticIndex, IndexMapping(s.embedDims))]
    ensures |r.log| > |log| && r.log[|log|] == IndexExists(s.elasticIndex)
    ensures CreateIndex(s.elasticIndex, IndexMapping(s.embedDims)) in r.log[|log|..]
            <==> store(log, IndexExists(s.elasticIndex)).Answer? && !Truthy(store(log, IndexExists(s.elasticIndex)).payload)
    ensures ReportsPresent(store(log, IndexExists(s.elasticIndex))) ==> r == Run(log + [IndexExists(s.elasticIndex)], Ok(()))
    ensures r.outcome.Ok? <==> forall i :: |log| <= i < |r.log| ==> store(r.log[..i], r.log[i]).Answer?
    ensures r.outcome.Err? ==> exists i :: |log| <= i < |r.log| && store(r.log[..i], r.log[i]) == Raised(r.outcome.error)
  {
    var probe := IndexExists(s.elasticIndex);
    var log1 := log + [probe];
    assert log1[|log|..] == [probe];
    assert log1[..|log|] == log;
    match store(log, probe)
    case Raised(m) => Run(log1, Err(m))
    case Answer(present) =>
      if Truthy(present) then Run(log1, Ok(()))
      else
        var create := CreateIndex(s.elasticIndex, IndexMapping(s.embedDims));
        var log2 := log1 + [create];
        assert log2[|log|..] == [probe, create];
        assert log2[..|log1|] == log1;
        match store(log1, create)
        case Raised(m) =>
          assert log2[..|log1|] == log1;
          Run(log2, Err(m))
        case Answer(_) => Run(log2, Ok(()))
  }

  /** A store that never loses an index: once an exists probe is answered
      truthy, or a create is answered, later probes answer truthy. */
  ghost predicate KeepsIndex(store: Store, index: string) {
    && (forall h: seq<Request>, q: Request :: ReportsPresent(store(h, IndexExists(index))) ==> ReportsPresent(store(h + [q], IndexExists(index))))
    && (forall h: seq<Request>, m: Json :: store(h, CreateIndex(index, m)).Answer? ==> ReportsPresent(store(h + [CreateIndex(index, m)], IndexExists(index))))
  }

  /** Against a store that keeps indices, a second ensure_index after a
      successful one only probes: it never creates again and succeeds. */
  lemma EnsureIndexIdempotent(s: Settings, store: Store, log: seq<Request>)
    requires KeepsIndex(store, s.elasticIndex)
    requires EnsureIndex(s, store, log).outcome.Ok?
    ensures var r1 := EnsureIndex(s, store, log);
            EnsureIndex(s, store, r1.log) == Run(r1.log + [IndexExists(s.elasticIndex)], Ok(()))
  {
    var idx := s.elasticIndex;
    var probe := IndexExists(idx);
    var r1 := EnsureIndex(s, store, log);
    if ReportsPresent(store(log, probe)) {
      assert r1.log == log + [probe];
      assert ReportsPresent(store(log + [probe], probe));
    } else {
      var create := CreateIndex(idx, IndexMapping(s.embedDims));
      assert store(log + [probe], create).Answer?;
      assert r1.log == log + [probe] + [create];
      assert ReportsPresent(store(log + [probe] + [create], probe));
    }
  }

  // ---------------------------------------------------------------------
  // upsert_chunk
  // ---------------------------------------------------------------------

  function EncodeChunk(c: Chunk): Json {
    Obj(map["project_id" := Str(c.projectId),
            "text" := Str(c.text),
            "tags" := Arr(ArrayOf(StrJson, c.tags)),
            "embedding" := Arr(ArrayOf(FloatJson, c.embedding))])
  }

  ghost function DecodeChunk(j: Json): Option<Chunk> {
    match (Member(j, "project_id"), Member(j, "text"), Member(j, "tags"), Member(j, "embedding"))
    case (Some(Str(p)), Some(Str(t)), Some(Arr(tags)), Some(Arr(emb))) =>
      (match (ItemsAs(AsString, tags), ItemsAs(AsReal, emb))
       case (Some(ts), Some(vs)) => Some(Chunk(p, t, ts, vs))
       case _ => None)
    case _ => None
  }

  /** The stored document carries exactly the chunk's four fields. */
  lemma ChunkRoundTrip(c: Chunk)
    ensures DecodeChunk(EncodeChunk(c)) == Some(c)
  {
    StringsRoundTrip(c.tags);
    RealsRoundTrip(c.embedding);
  }

  /** Python's `tags or []`: a falsy value (`None` or the empty list)
      becomes `[]`, and a non-empty list is kept. */
  function TagsOrEmpty(tags: Option<seq<string>>): (ts: seq<string>)
    ensures ts == (if tags.Some? && tags.value != [] then tags.value else [])
  {
    tags.GetOr([])
  }

  /** The request that writes one chunk. */
  function WriteChunk(s: Settings, c: Chunk): Request {
    IndexDocument(s.elasticIndex, EncodeChunk(c), "wait_for")
  }

  /** `res["_id"]`. */
  function IdOf(res: Json): Result<Json> {
    if res.Obj? && "_id" in res.fields then Ok(res.fields["_id"]) else Err("KeyError: '_id'")
  }

  /** A write issued after ensure_index is the only document written since. */
  lemma WriteAfterEnsureIndex(s: Settings, store: Store, log: seq<Request>, w: Request)
    requires w.IndexDocument?
    ensures Documents((EnsureIndex(s, store, log).log + [w])[|log|..]) == [w.document]
  {
    var e := EnsureIndex(s, store, log);
    NoWritesNoDocuments(e.log[|log|..]);
    AppendSince(log, e.log, [w]);
    DocumentsAppend(e.log[|log|..], [w]);
    assert Documents([w]) == [w.document];
  }

  /** Ensure the index, then write one document; the result is the id the
      store assigned to it. At most that one document is written. */
  function UpsertChunk(s: Settings, store: Store, log: seq<Request>,
                       projectId: string, text: string, embedding: seq<real>, tags: Option<seq<string>>): (r: Run<Json>)
    ensures Extends(r.log, log)
    ensures var written := Documents(r.log[|log|..]);
            var doc := EncodeChunk(Chunk(projectId, text, TagsOrEmpty(tags), embedding));
            && (written == [] || written == [doc])
            && (r.outcome.Ok? ==> written == [doc])
    ensures r.outcome.Ok? ==>
            var w := r.log[|r.log| - 1];
            && |r.log| > |log|
            && w == WriteChunk(s, Chunk(projectId, text, TagsOrEmpty(tags), embedding))
            && store(r.log[..|r.log| - 1], w).Answer?
            && r.outcome == IdOf(store(r.log[..|r.log| - 1], w).payload)
  {
    var e := EnsureIndex(s, store, log);
    NoWritesNoDocuments(e.log[|log|..]);
    if e.outcome.Err? then Run(e.log, Err(e.outcome.error))
    else
      var w := WriteChunk(s, Chunk(projectId, text, TagsOrEmpty(tags), embedding));
      var log' := e.log + [w];
      WriteAfterEnsureIndex(s, store, log, w);
      assert log'[..|log'| - 1] == e.log;
      match store(e.log, w)
      case Raised(m) => Run(log', Err(m))
      case Answer(res) => Run(log', IdOf(res))
  }

  /** upsert_chunk writes nothing when ensure_index fails, and otherwise
      writes directly after it, the stored tags being `[]` for `None`. */
  lemma UpsertChunkAfterEnsureIndex(s: Settings, store: Store, log: seq<Request>,
                                    projectId: string, text: string, embedding: seq<real>, tags: Option<seq<string>>)
    ensures var e := EnsureIndex(s, store, log);
            var r := UpsertChunk(s, store, log, projectId, text, embedding, tags);
            && (e.outcome.Err? ==> r == Run(e.log, Err(e.outcome.error)))
            && (e.outcome.Ok? ==> r.log == e.log + [WriteChunk(s, Chunk(projectId, text, TagsOrEmpty(tags), embedding))])
            && (e.outcome.Ok? && store(e.log, WriteChunk(s, Chunk(projectId, text, TagsOrEmpty(tags), embedding))).Answer? ==>
                  r.outcome == IdOf(store(e.log, WriteChunk(s, Chunk(projectId, text, TagsOrEmpty(tags), embedding))).payload))
            && (e.outcome.Ok? && store(e.log, WriteChunk(s, Chunk(projectId, text, TagsOrEmpty(tags), embedding))).Raised? ==>
                  r.outcome == Err(store(e.log, WriteChunk(s, Chunk(projectId, text, TagsOrEmpty(tags), embedding))).message))
            && (tags.None? ==> WriteChunk(s, Chunk(projectId, text, TagsOrEmpty(tags), embedding)).document.fields["tags"] == Json.Arr([]))
  {
  }

  /** Every request of `reqs` from position `from` on was answered, and
      every write among them with an `_id`. */
  ghost predicate AllAnswered(store: Store, reqs: seq<Request>, from: nat) {
    forall i :: from <= i < |reqs| ==> AnsweredAt(store, reqs, i)
  }

  /** Request `i` of `reqs` was answered, and with an `_id` if it is a write. */
  ghost predicate AnsweredAt(store: Store, reqs: seq<Request>, i: nat)
    requires i < |reqs|
  {
    store(reqs[..i], reqs[i]).Answer? && (reqs[i].IndexDocument? ==> IdOf(store(reqs[..i], reqs[i]).payload).Ok?)
  }

  /** Answered stretches of a log that was extended twice join up. */
  lemma AllAnsweredSplit(store: Store, a: seq<Request>, b: seq<Request>, c: seq<Request>)
    requires Extends(b, a) && Extends(c, b)
    requires AllAnswered(store, b, |a|) && AllAnswered(store, c, |b|)
    ensures AllAnswered(store, c, |a|)
  {
    forall i | |a| <= i < |b|
      ensures AnsweredAt(store, c, i)
    {
      assert c[..|b|] == b;
      assert c[..i] == c[..|b|][..i];
      assert AnsweredAt(store, b, i);
    }
  }

  /** A successful ensure_index had every request it issued answered. */
  lemma EnsureIndexAnswered(s: Settings, store: Store, log: seq<Request>)
    ensures var e := EnsureIndex(s, store, log);
            e.outcome.Ok? ==> AllAnswered(store, e.log, |log|)
  {
    var e := EnsureIndex(s, store, log);
    forall i | |log| <= i < |e.log|
      ensures !e.log[i].IndexDocument?
    {
      assert e.log[i] == e.log[|log|..][i - |log|];
    }
  }

  /** A successful upsert_chunk had every request it issued answered, its
      write with an `_id`. */
  lemma UpsertChunkAnswered(s: Settings, store: Store, log: seq<Request>,
                            projectId: string, text: string, embedding: seq<real>, tags: Option<seq<string>>)
    ensures var r := UpsertChunk(s, store, log, projectId, text, embedding, tags);
            r.outcome.Ok? ==> AllAnswered(store, r.log, |log|)
  {
    var e := EnsureIndex(s, store, log);
    var r := UpsertChunk(s, store, log, projectId, text, embedding, tags);
    if r.outcome.Ok? {
      var w := WriteChunk(s, Chunk(projectId, text, TagsOrEmpty(tags), embedding));
      UpsertChunkAfterEnsureIndex(s, store, log, projectId, text, embedding, tags);
      EnsureIndexAnswered(s, store, log);
      assert r.log == e.log + [w];
      assert r.log[..|e.log|] == e.log;
      assert AllAnswered(store, r.log, |e.log|);
      AllAnsweredSplit(store, log, e.log, r.log);
    }
  }

  /** A store that answers every request, and every write with an `_id`. */
  ghost predicate AnswersEverything(store: Store) {
    forall h: seq<Request>, q: Request :: store(h, q).Answer? && (q.IndexDocument? ==> IdOf(store(h, q).payload).Ok?)
  }

  /** Against a store that answers everything, upsert_chunk succeeds with
      the `_id` of its write. */
  lemma UpsertChunkSucceeds(s: Settings, store: Store, log: seq<Request>,
                            projectId: string, text: string, embedding: seq<real>, tags: Option<seq<string>>)
    requires AnswersEverything(store)
    ensures var e := EnsureIndex(s, store, log);
            var w := WriteChunk(s, Chunk(projectId, text, TagsOrEmpty(tags), embedding));
            && e.outcome.Ok?
            && UpsertChunk(s, store, log, projectId, text, embedding, tags).outcome == IdOf(store(e.log, w).payload)
            && IdOf(store(e.log, w).payload).Ok?
  {
    var e := EnsureIndex(s, store, log);
    var w := WriteChunk(s, Chunk(projectId, text, TagsOrEmpty(tags), embedding));
    assert store(e.log, w).Answer? && IdOf(store(e.log, w).payload).Ok?;
    UpsertChunkAfterEnsureIndex(s, store, log, projectId, text, embedding, tags);
  }

  lemma {:induction false} DocumentsAppend(a: seq<Request>, b: seq<Request>)
    ensures Documents(a + b) == Documents(a) + Documents(b)
  {
    if a == [] {
      assert a + b == b;
    } else {
      assert (a + b)[0] == a[0];
      assert (a + b)[1..] == a[1..] + b;
      DocumentsAppend(a[1..], b);
    }
  }

  lemma {:induction false} NoWritesNoDocuments(reqs: seq<Request>)
    requires NoWrites(reqs)
    ensures Documents(reqs) == []
  {
    if reqs != [] {
      assert reqs[0] in reqs;
      assert forall r :: r in reqs[1..] ==> r in reqs;
      NoWritesNoDocuments(reqs[1..]);
    }
  }

  // ---------------------------------------------------------------------
  // Hit projection
  // ---------------------------------------------------------------------

  /** One hit as `{"text": h["_source"]["text"], "score": h["_score"]}`. */
  function HitOf(h: Json): Result<Hit> {
    if !(h.Obj? && "_source" in h.fields) then Err("KeyError: '_source'")
    else
      var src := h.fields["_source"];
      if !(src.Obj? && "text" in src.fields) then Err("KeyError: 'text'")
      else if !src.fields["text"].Str? then Err("text is not a string")
      else if !("_score" in h.fields) then Err("KeyError: '_score'")
      else Ok(Hit(src.fields["text"].s, h.fields["_score"]))
  }

  /** The list comprehension over the hits: order and length preserved,
      failing on the first hit that cannot be read. */
  function ProjectHits(hits: seq<Json>): (r: Result<seq<Hit>>)
    ensures r.Ok? <==> forall i :: 0 <= i < |hits| ==> HitOf(hits[i]).Ok?
    ensures r.Ok? ==> |r.value| == |hits| && forall i :: 0 <= i < |hits| ==> r.value[i] == HitOf(hits[i]).value
    ensures r.Err? ==> exists i :: 0 <= i < |hits| && HitOf(hits[i]).Err? && r.error == HitOf(hits[i]).error
  {
    if hits == [] then Ok([])
    else match (HitOf(hits[0]), ProjectHits(hits[1..]))
      case (Err(m), _) => Err(m)
      case (Ok(_), Err(m)) => Err(m)
      case (Ok(h), Ok(rest)) => Ok([h] + rest)
  }

  /** What `for h in x` sees when every item is then indexed by a string:
      a list gives its items; an empty dict or string gives nothing; any
      other value fails (not iterable, or its first item is not a dict). */
  function IterableHits(x: Json): Result<seq<Json>> {
    match x
    case Arr(items) => Ok(items)
    case Obj(fields) => if fields == map[] then Ok([]) else Err("TypeError: string indices must be integers")
    case Str(chars) => if chars == [] then Ok([]) else Err("TypeError: string indices must be integers")
    case _ => Err("TypeError: object is not iterable")
  }

  /** `res["hits"]["hits"]`, as knn_search reads the response. */
  function StrictHitList(res: Json): Result<seq<Json>> {
    if !(res.Obj? && "hits" in res.fields) then Err("KeyError: 'hits'")
    else
      var outer := res.fields["hits"];
      if !(outer.Obj? && "hits" in outer.fields) then Err("KeyError: 'hits'")
      else IterableHits(outer.fields["hits"])
  }

  /** `res.get("hits", {}).get("hits", [])`, as hybrid_search reads it: a
      missing key at either level yields no hits. */
  function LenientHitList(res: Json): (r: Result<seq<Json>>)
    ensures res.Obj? && "hits" !in res.fields ==> r == Ok([])
    ensures res.Obj? && "hits" in res.fields && res.fields["hits"].Obj? && "hits" !in res.fields["hits"].fields ==> r == Ok([])
    ensures StrictHitList(res).Ok? ==> r == StrictHitList(res)
  {
    if !res.Obj? then Err("AttributeError: 'get'")
    else
      var outer := if "hits" in res.fields then res.fields["hits"] else Obj(map[]);
      if !outer.Obj? then Err("AttributeError: 'get'")
      else IterableHits(if "hits" in outer.fields then outer.fields["hits"] else Arr([]))
  }

  function Then<T, U>(r: Result<T>, f: T -> Result<U>): Result<U> {
    match r
    case Ok(v) => f(v)
    case Err(m) => Err(m)
  }

  /** Scores that `format(score, ".3f")` accepts: numbers, and booleans as
      the integers they are in Python. */
  predicate Formattable(score: Json) {
    score.Int? || score.Float? || score.Bool?
  }

  /** The exception `format(score, ".3f")` raises, if any. */
  function FormatError(score: Json): Option<string> {
    match score
    case Int(_) => None
    case Float(_) => None
    case Bool(_) => None
    case Str(_) => Some("ValueError: Unknown format code 'f' for object of type 'str'")
    case Null => Some("TypeError: unsupported format string passed to NoneType.__format__")
    case Arr(_) => Some("TypeError: unsupported format string passed to list.__format__")
    case Obj(_) => Some("TypeError: unsupported format string passed to dict.__format__")
  }

  /** Formatting the scores of `hits` in order: the first one that cannot be
      formatted raises. */
  function FormatScores(hits: seq<Hit>): (r: Option<string>)
    ensures r.None? <==> forall i :: 0 <= i < |hits| ==> Formattable(hits[i].score)
    ensures r.Some? ==> exists i :: 0 <= i < |hits| && !Formattable(hits[i].score) && r == FormatError(hits[i].score)
  {
    if hits == [] then None
    else if FormatError(hits[0].score).Some? then FormatError(hits[0].score)
    else FormatScores(hits[1..])
  }

  /** The summary hybrid_search prints: the results are returned unchanged
      unless one of the first five carries a score that cannot be formatted. */
  function LogSummary(results: seq<Hit>): (r: Result<seq<Hit>>)
    ensures r.Ok? <==> forall i :: 0 <= i < |results| && i < 5 ==> Formattable(results[i].score)
    ensures r.Ok? ==> r.value == results
  {
    var shown := if |results| <= 5 then results else results[..5];
    match FormatScores(shown)
    case None => Ok(results)
    case Some(m) => Err(m)
  }

  /** How hybrid_search turns an answered response into its results: read
      the hit list leniently, project each hit, then print the summary. */
  function ReadHybrid(res: Json): (r: Result<seq<Hit>>)
    ensures var hits := Then(LenientHitList(res), ProjectHits);
            r.Ok? <==> hits.Ok? && forall i :: 0 <= i < |hits.value| && i < 5 ==> Formattable(hits.value[i].score)
    ensures r.Ok? ==> r == Then(LenientHitList(res), ProjectHits)
  {
    Then(Then(LenientHitList(res), ProjectHits), LogSummary)
  }

  // ---------------------------------------------------------------------
  // knn_search and hybrid_search
  // ---------------------------------------------------------------------

  function SearchRequest(s: Settings, b: SearchBody): Request {
    Search(s.elasticIndex, EncodeBody(b))
  }

  /** Ensure the index, issue one plain kNN search, project the hits. */
  function KnnSearch(s: Settings, store: Store, log: seq<Request>,
                     projectId: string, queryVector: seq<real>, k: int): (r: Run<seq<Hit>>)
    ensures Extends(r.log, log)
    ensures var e := EnsureIndex(s, store, log);
            var q := SearchRequest(s, KnnBody(projectId, queryVector, k));
            && (e.outcome.Err? ==> r == Run(e.log, Err(e.outcome.error)))
            && (e.outcome.Ok? ==> r.log == e.log + [q])
            && (e.outcome.Ok? && store(e.log, q).Raised? ==> r.outcome == Err(store(e.log, q).message))
            && (e.outcome.Ok? && store(e.log, q).Answer? ==> r.outcome == Then(StrictHitList(store(e.log, q).payload), ProjectHits))
  {
    var e := EnsureIndex(s, store, log);
    if e.outcome.Err? then Run(e.log, Err(e.outcome.error))
    else
      var q := SearchRequest(s, KnnBody(projectId, queryVector, k));
      match store(e.log, q)
      case Raised(m) => Run(e.log + [q], Err(m))
      case Answer(res) => Run(e.log + [q], Then(StrictHitList(res), ProjectHits))
  }

  /** Ensure the index, issue the fused search and, only if that request
      raises, the same search without fusion. A failing fallback propagates;
      a failure while reading an answered response is not retried. */
  function HybridSearch(s: Settings, store: Store, log: seq<Request>,
                        projectId: string, queryText: string, queryVector: seq<real>, k: int): (r: Run<seq<Hit>>)
    ensures Extends(r.log, log)
    ensures var e := EnsureIndex(s, store, log);
            var primary := SearchRequest(s, HybridBody(projectId, queryText, queryVector, k));
            var fallback := SearchRequest(s, FallbackBody(projectId, queryText, queryVector, k));
            && (e.outcome.Err? ==> r == Run(e.log, Err(e.outcome.error)))
            && (e.outcome.Ok? && store(e.log, primary).Answer? ==>
                  r == Run(e.log + [primary], ReadHybrid(store(e.log, primary).payload)))
            && (e.outcome.Ok? && store(e.log, primary).Raised? ==>
                  r.log == e.log + [primary, fallback]
                  && (store(e.log + [primary], fallback).Raised? ==> r.outcome == Err(store(e.log + [primary], fallback).message))
                  && (store(e.log + [primary], fallback).Answer? ==>
                        r.outcome == ReadHybrid(store(e.log + [primary], fallback).payload)))
  {
    var e := EnsureIndex(s, store, log);
    if e.outcome.Err? then Run(e.log, Err(e.outcome.error))
    else
      var primary := SearchRequest(s, HybridBody(projectId, queryText, queryVector, k));
      var log1 := e.log + [primary];
      match store(e.log, primary)
      case Answer(res) => Run(log1, ReadHybrid(res))
      case Raised(_) =>
        var fallback := SearchRequest(s, FallbackBody(projectId, queryText, queryVector, k));
        var log2 := log1 + [fallback];
        assert log2 == e.log + [primary, fallback];
        match store(log1, fallback)
        case Raised(m) => Run(log2, Err(m))
        case Answer(res) => Run(log2, ReadHybrid(res))
  }

  // ---------------------------------------------------------------------
  // Tenant isolation of everything sent
  // ---------------------------------------------------------------------

  /** A search request whose body reads back as a well-formed body scoped to
      `projectId` with top-level size `size`. */
  ghost predicate ScopedSearch(q: Request, projectId: string, size: int)
    requires q.Search?
  {
    DecodeBody(q.body).Some? && WellFormedFor(DecodeBody(q.body).value, projectId) && DecodeBody(q.body).value.size == size
  }

  /** Every search in `reqs` is scoped to `projectId` with the given size. */
  ghost predicate SearchesScoped(reqs: seq<Request>, projectId: string, size: int) {
    forall q :: q in reqs && q.Search? ==> ScopedSearch(q, projectId, size)
  }

  lemma ScopedConcat(a: seq<Request>, b: seq<Request>, projectId: string, size: int)
    requires SearchesScoped(a, projectId, size) && SearchesScoped(b, projectId, size)
    ensures SearchesScoped(a + b, projectId, size)
  {
  }

  lemma SentBodyScoped(s: Settings, b: SearchBody, projectId: string)
    requires WellFormedFor(b, projectId)
    ensures ScopedSearch(SearchRequest(s, b), projectId, b.size)
  {
    BodyRoundTrip(b);
  }

  lemma KnnSearchLog(s: Settings, store: Store, log: seq<Request>, projectId: string, queryVector: seq<real>, k: int)
    ensures var e := EnsureIndex(s, store, log);
            var r := KnnSearch(s, store, log, projectId, queryVector, k);
            r.log[|log|..] == e.log[|log|..] + (if e.outcome.Ok? then [SearchRequest(s, KnnBody(projectId, queryVector, k))] else [])
  {
    var e := EnsureIndex(s, store, log);
    var r := KnnSearch(s, store, log, projectId, queryVector, k);
    if e.outcome.Ok? {
      assert r.log[|log|..] == e.log[|log|..] + [SearchRequest(s, KnnBody(projectId, queryVector, k))];
    } else {
      assert e.log[|log|..] + [] == e.log[|log|..];
    }
  }

  /** Every search knn_search sends is filtered to the caller's tenant and
      asks for `k` hits from at least `k` candidates. */
  lemma KnnSearchScoped(s: Settings, store: Store, log: seq<Request>, projectId: string, queryVector: seq<real>, k: int)
    ensures SearchesScoped(KnnSearch(s, store, log, projectId, queryVector, k).log[|log|..], projectId, k)
  {
    var e := EnsureIndex(s, store, log);
    var b := KnnBody(projectId, queryVector, k);
    KnnSearchLog(s, store, log, projectId, queryVector, k);
    KnnBodyWellFormed(projectId, queryVector, k);
    SentBodyScoped(s, b, projectId);
    EnsureIndexSearchesNothing(s, store, log, projectId, k);
    var sent := if e.outcome.Ok? then [SearchRequest(s, b)] else [];
    assert SearchesScoped(sent, projectId, k);
    ScopedConcat(e.log[|log|..], sent, projectId, k);
  }

  lemma EnsureIndexSearchesNothing(s: Settings, store: Store, log: seq<Request>, projectId: string, size: int)
    ensures SearchesScoped(EnsureIndex(s, store, log).log[|log|..], projectId, size)
  {
  }

  lemma HybridRequestsScoped(s: Settings, projectId: string, queryText: string, queryVector: seq<real>, k: int)
    ensures ScopedSearch(SearchRequest(s, HybridBody(projectId, queryText, queryVector, k)), projectId, PoolSize(k))
    ensures ScopedSearch(SearchRequest(s, FallbackBody(projectId, queryText, queryVector, k)), projectId, PoolSize(k))
  {
    HybridBodiesWellFormed(projectId, queryText, queryVector, k);
    SentBodyScoped(s, HybridBody(projectId, queryText, queryVector, k), projectId);
    SentBodyScoped(s, FallbackBody(projectId, queryText, queryVector, k), projectId);
  }

  /** The requests hybrid_search adds after ensuring the index: the fused
      search, followed by the fallback only when the fused one raised. */
  function HybridSent(s: Settings, store: Store, ensured: seq<Request>,
                      projectId: string, queryText: string, queryVector: seq<real>, k: int): seq<Request>
  {
    var primary := SearchRequest(s, HybridBody(projectId, queryText, queryVector, k));
    if store(ensured, primary).Answer? then [primary]
    else [primary, SearchRequest(s, FallbackBody(projectId, queryText, queryVector, k))]
  }

  lemma HybridSearchLog(s: Settings, store: Store, log: seq<Request>,
                        projectId: string, queryText: string, queryVector: seq<real>, k: int)
    ensures var e := EnsureIndex(s, store, log);
            var r := HybridSearch(s, store, log, projectId, queryText, queryVector, k);
            r.log[|log|..] == e.log[|log|..] + (if e.outcome.Ok? then HybridSent(s, store, e.log, projectId, queryText, queryVector, k) else [])
  {
    var e := EnsureIndex(s, store, log);
    var r := HybridSearch(s, store, log, projectId, queryText, queryVector, k);
    if e.outcome.Ok? {
      var sent := HybridSent(s, store, e.log, projectId, queryText, queryVector, k);
      assert r.log == e.log + sent;
      AppendSince(log, e.log, sent);
    } else {
      assert e.log[|log|..] + [] == e.log[|log|..];
    }
  }

  /** Every search hybrid_search sends, primary or fallback, is filtered to
      the caller's tenant and uses the pool size `max(3k, 15)` throughout. */
  lemma HybridSearchScoped(s: Settings, store: Store, log: seq<Request>,
                           projectId: string, queryText: string, queryVector: seq<real>, k: int)
    ensures SearchesScoped(HybridSearch(s, store, log, projectId, queryText, queryVector, k).log[|log|..], projectId, PoolSize(k))
  {
    var e := EnsureIndex(s, store, log);
    HybridSearchLog(s, store, log, projectId, queryText, queryVector, k);
    HybridRequestsScoped(s, projectId, queryText, queryVector, k);
    EnsureIndexSearchesNothing(s, store, log, projectId, PoolSize(k));
    if e.outcome.Ok? {
      var sent := HybridSent(s, store, e.log, projectId, queryText, queryVector, k);
      assert SearchesScoped(sent, projectId, PoolSize(k));
      ScopedConcat(e.log[|log|..], sent, projectId, PoolSize(k));
    } else {
      assert e.log[|log|..] + [] == e.log[|log|..];
    }
  }

  /** The fallback is sent exactly when the fused request raised, and the
      fused request is never sent twice. */
  lemma FallbackOnlyOnFailure(s: Settings, store: Store, log: seq<Request>,
                              projectId: string, queryText: string, queryVector: seq<real>, k: int)
    requires EnsureIndex(s, store, log).outcome.Ok?
    ensures var e := EnsureIndex(s, store, log);
            var r := HybridSearch(s, store, log, projectId, queryText, queryVector, k);
            var primary := SearchRequest(s, HybridBody(projectId, queryText, queryVector, k));
            var fallback := SearchRequest(s, FallbackBody(projectId, queryText, queryVector, k));
            && r.log[|e.log|] == primary
            && (fallback in r.log[|e.log|..] <==> store(e.log, primary).Raised?)
  {
    var e := EnsureIndex(s, store, log);
    var primary := SearchRequest(s, HybridBody(projectId, queryText, queryVector, k));
    var fallback := SearchRequest(s, FallbackBody(projectId, queryText, queryVector, k));
    var r := HybridSearch(s, store, log, projectId, queryText, queryVector, k);
    if store(e.log, primary).Answer? {
      assert r.log[|e.log|..] == [primary];
      HybridBodiesWellFormed(projectId, queryText, queryVector, k);
      BodyRoundTrip(HybridBody(projectId, queryText, queryVector, k));
      BodyRoundTrip(FallbackBody(projectId, queryText, queryVector, k));
      assert primary != fallback by {
        assert DecodeBody(primary.body).value.rank.Some?;
        assert DecodeBody(fallback.body).value.rank.None?;
      }
    } else {
      assert r.log[|e.log|..] == [primary, fallback];
    }
  }

  /** A response without a `hits` key is read as no hits by hybrid_search,
      while knn_search fails on it. */
  lemma MissingHitsReadsAsEmpty(res: Json)
    requires res.Obj? && "hits" !in res.fields
    ensures ReadHybrid(res) == Ok([])
    ensures StrictHitList(res).Err?
  {
  }
}

=== FILE: json.dfy ===
/** JSON values as the Python code builds and receives them (dicts, lists,
    strings, ints, floats, booleans, None). Objects are maps: the store does
    not depend on key order. Ints and floats are kept apart because the
    request bodies mix `20` and `2.0`. */
module Json {
  import opened Wrappers

  datatype Json =
    | Null
    | Bool(b: bool)
    | Int(i: int)
    | Float(f: real)
    | Str(s: string)
    | Arr(items: seq<Json>)
    | Obj(fields: map<string, Json>)

  /** Python truthiness of a decoded value (`if not x:`). */
  predicate Truthy(j: Json) {
    match j
    case Null => false
    case Bool(b) => b
    case Int(i) => i != 0
    case Float(f) => f != 0.0
    case Str(s) => s != []
    case Arr(items) => items != []
    case Obj(fields) => fields != map[]
  }

  function StrJson(s: string): Json { Str(s) }

  function FloatJson(x: real): Json { Float(x) }

  ghost function AsString(j: Json): Option<string> {
    if j.Str? then Some(j.s) else None
  }

  ghost function AsReal(j: Json): Option<real> {
    if j.Float? then Some(j.f) else None
  }

  ghost function AsInt(j: Json): Option<int> {
    if j.Int? then Some(j.i) else None
  }

  /** The items of a JSON list built element by element from `xs`. */
  function ArrayOf<T>(enc: T -> Json, xs: seq<T>): (items: seq<Json>)
    ensures |items| == |xs|
    ensures forall i :: 0 <= i < |xs| ==> items[i] == enc(xs[i])
  {
    if xs == [] then [] else [enc(xs[0])] + ArrayOf(enc, xs[1..])
  }

  /** Reads every item of a JSON list back with `dec`; fails if any item fails. */
  ghost function ItemsAs<T>(dec: Json -> Option<T>, items: seq<Json>): Option<seq<T>>
  {
    if items == [] then Some([])
    else match (dec(items[0]), ItemsAs(dec, items[1..]))
      case (Some(x), Some(rest)) => Some([x] + rest)
      case _ => None
  }

  /** Element-wise decoding inverts element-wise encoding. */
  lemma {:induction false} ItemsRoundTrip<T>(enc: T -> Json, dec: Json -> Option<T>, xs: seq<T>)
    requires forall x :: dec(enc(x)) == Some(x)
    ensures ItemsAs(dec, ArrayOf(enc, xs)) == Some(xs)
  {
    if xs != [] {
      var items := ArrayOf(enc, xs);
      assert items[0] == enc(xs[0]);
      assert items[1..] == ArrayOf(enc, xs[1..]);
      ItemsRoundTrip(enc, dec, xs[1..]);
      assert [xs[0]] + xs[1..] == xs;
    }
  }

  lemma StringsRoundTrip(xs: seq<string>)
    ensures ItemsAs(AsString, ArrayOf(StrJson, xs)) == Some(xs)
  {
    ItemsRoundTrip(StrJson, AsString, xs);
  }

  lemma RealsRoundTrip(xs: seq<real>)
    ensures ItemsAs(AsReal, ArrayOf(FloatJson, xs)) == Some(xs)
  {
    ItemsRoundTrip(FloatJson, AsReal, xs);
  }
}

=== FILE: query_body.dfy ===
/** The search request bodies of app/elastic_memory.py, as typed values, their
    exact JSON encoding, and a decoder that proves the encoding loses nothing.
    Properties stated over the typed bodies are therefore properties of the
    JSON the store receives. */
module QueryBody {
  import opened Wrappers
  import opened Json

  /** `{"match": {field: {"query": .., "boost": .., "fuzziness": ..}}}` */
  datatype MatchSpec = MatchSpec(field: string, query: string, boost: real, fuzziness: Option<string>)

  /** `{"knn": {"field": .., "query_vector": .., "k": .., "num_candidates": .., "boost": ..}}` */
  datatype KnnSpec = KnnSpec(field: string, queryVector: seq<real>, k: int, numCandidates: int, boost: Option<real>)

  datatype Clause =
    | TermQ(field: string, value: string)   // `{"term": {field: value}}`
    | MatchQ(m: MatchSpec)
    | KnnQ(knn: KnnSpec)

  /** `{"bool": {"filter": .., "must": .., "should": .., "minimum_should_match": ..}}`;
      an absent key is `None`. */
  datatype BoolQuery = BoolQuery(
    filter: seq<Clause>,
    must: Option<seq<Clause>>,
    should: Option<seq<Clause>>,
    minimumShouldMatch: Option<int>)

  /** `{"rrf": {"rank_window_size": .., "rank_constant": ..}}` */
  datatype Rrf = Rrf(rankWindowSize: int, rankConstant: int)

  datatype SearchBody = SearchBody(
    size: int,
    source: Option<seq<string>>,   // the `_source` field list
    query: BoolQuery,
    rank: Option<Rrf>)

  // ---------------------------------------------------------------------
  // Encoding to the JSON the Python dict literals denote
  // ---------------------------------------------------------------------

  function EncodeMatchParams(m: MatchSpec): Json {
    var base := map["query" := Str(m.query), "boost" := Float(m.boost)];
    Obj(if m.fuzziness.Some? then base["fuzziness" := Str(m.fuzziness.value)] else base)
  }

  function EncodeKnn(k: KnnSpec): Json {
    var base := map["field" := Str(k.field),
                    "query_vector" := Arr(ArrayOf(FloatJson, k.queryVector)),
                    "k" := Int(k.k),
                    "num_candidates" := Int(k.numCandidates)];
    Obj(if k.boost.Some? then base["boost" := Float(k.boost.value)] else base)
  }

  function EncodeClause(c: Clause): Json {
    match c
    case TermQ(field, value) => Obj(map["term" := Obj(map[field := Str(value)])])
    case MatchQ(m) => Obj(map["match" := Obj(map[m.field := EncodeMatchParams(m)])])
    case KnnQ(k) => Obj(map["knn" := EncodeKnn(k)])
  }

  function EncodeClauses(cs: seq<Clause>): Json {
    Arr(ArrayOf(EncodeClause, cs))
  }

  function EncodeBool(q: BoolQuery): Json {
    var m0 := map["filter" := EncodeClauses(q.filter)];
    var m1 := if q.must.Some? then m0["must" := EncodeClauses(q.must.value)] else m0;
    var m2 := if q.should.Some? then m1["should" := EncodeClauses(q.should.value)] else m1;
    var m3 := if q.minimumShouldMatch.Some? then m2["minimum_should_match" := Int(q.minimumShouldMatch.value)] else m2;
    Obj(map["bool" := Obj(m3)])
  }

  function EncodeRrf(r: Rrf): Json {
    Obj(map["rrf" := Obj(map["rank_window_size" := Int(r.rankWindowSize), "rank_constant" := Int(r.rankConstant)])])
  }

  function EncodeBody(b: SearchBody): Json {
    var m0 := map["size" := Int(b.size), "query" := EncodeBool(b.query)];
    var m1 := if b.source.Some? then m0["_source" := Arr(ArrayOf(StrJson, b.source.value))] else m0;
    Obj(if b.rank.Some? then m1["rank" := EncodeRrf(b.rank.value)] else m1)
  }

  // ---------------------------------------------------------------------
  // Decoding: the reading the store gives a body
  // ---------------------------------------------------------------------

  /** The value at `key` of an object, if there is one. */
  ghost function Member(j: Json, key: string): Option<Json> {
    if j.Obj? && key in j.fields then Some(j.fields[key]) else None
  }

  /** An optional member: absent gives `Some(None)`, present but unreadable gives `None`. */
  ghost function OptionalAs<T>(dec: Json -> Option<T>, j: Json, key: string): Option<Option<T>> {
    match Member(j, key)
    case None => Some(None)
    case Some(v) => match dec(v) case Some(x) => Some(Some(x)) case None => None
  }

  /** An object with exactly one key: that key and its value. */
  ghost function SoleEntry(j: Json): Option<(string, Json)> {
    if j.Obj? && j.fields != map[] then
      var key :| key in j.fields;
      if j.fields == map[key := j.fields[key]] then Some((key, j.fields[key])) else None
    else None
  }

  ghost function DecodeMatchParams(field: string, j: Json): Option<MatchSpec> {
    match (Member(j, "query"), Member(j, "boost"), OptionalAs(AsString, j, "fuzziness"))
    case (Some(Str(q)), Some(Float(b)), Some(fz)) => Some(MatchSpec(field, q, b, fz))
    case _ => None
  }

  ghost function DecodeKnn(j: Json): Option<KnnSpec> {
    match (Member(j, "field"), Member(j, "query_vector"), Member(j, "k"), Member(j, "num_candidates"), OptionalAs(AsReal, j, "boost"))
    case (Some(Str(f)), Some(Arr(items)), Some(Int(k)), Some(Int(n)), Some(bst)) =>
      (match ItemsAs(AsReal, items)
       case Some(v) => Some(KnnSpec(f, v, k, n, bst))
       case None => None)
    case _ => None
  }

  ghost function DecodeClause(j: Json): Option<Clause> {
    match SoleEntry(j)
    case Some(("term", t)) =>
      (match SoleEntry(t) case Some((f, Str(v))) => Some(TermQ(f, v)) case _ => None)
    case Some(("match", m)) =>
      (match SoleEntry(m)
       case Some((f, params)) => (match DecodeMatchParams(f, params) case Some(ms) => Some(MatchQ(ms)) case None => None)
       case None => None)
    case Some(("knn", k)) =>
      (match DecodeKnn(k) case Some(ks) => Some(KnnQ(ks)) case None => None)
    case _ => None
  }

  ghost function DecodeClauses(j: Json): Option<seq<Clause>> {
    if j.Arr? then ItemsAs(DecodeClause, j.items) else None
  }

  ghost function DecodeBool(j: Json): Option<BoolQuery> {
    match Member(j, "bool")
    case Some(q) =>
      (match (Member(q, "filter"), OptionalAs(DecodeClauses, q, "must"), OptionalAs(DecodeClauses, q, "should"), OptionalAs(AsInt, q, "minimum_should_match"))
       case (Some(f), Some(must), Some(should), Some(msm)) =>
         (match DecodeClauses(f) case Some(filter) => Some(BoolQuery(filter, must, should, msm)) case None => None)
       case _ => None)
    case None => None
  }

  ghost function DecodeRrf(j: Json): Option<Rrf> {
    match Member(j, "rrf")
    case Some(r) =>
      (match (Member(r, "rank_window_size"), Member(r, "rank_constant"))
       case (Some(Int(w)), Some(Int(c))) => Some(Rrf(w, c))
       case _ => None)
    case None => None
  }

  ghost function DecodeStrings(j: Json): Option<seq<string>> {
    if j.Arr? then ItemsAs(AsString, j.items) else None
  }

  ghost function DecodeBody(j: Json): Option<SearchBody> {
    match (Member(j, "size"), Member(j, "query"), OptionalAs(DecodeStrings, j, "_source"), OptionalAs(DecodeRrf, j, "rank"))
    case (Some(Int(size)), Some(q), Some(source), Some(rank)) =>
      (match DecodeBool(q) case Some(query) => Some(SearchBody(size, source, query, rank)) case None => None)
    case _ => None
  }

  // ---------------------------------------------------------------------
  // Round trip
  // ---------------------------------------------------------------------

  lemma SoleEntryOf(key: string, v: Json)
    ensures SoleEntry(Obj(map[key := v])) == Some((key, v))
  {
    assert key in Obj(map[key := v]).fields;
  }

  lemma KnnRoundTrip(k: KnnSpec)
    ensures DecodeKnn(EncodeKnn(k)) == Some(k)
  {
    RealsRoundTrip(k.queryVector);
  }

  lemma ClauseRoundTrip(c: Clause)
    ensures DecodeClause(EncodeClause(c)) == Some(c)
  {
    match c
    case TermQ(field, value) =>
      SoleEntryOf("term", Obj(map[field := Str(value)]));
      SoleEntryOf(field, Str(value));
    case MatchQ(m) =>
      SoleEntryOf("match", Obj(map[m.field := EncodeMatchParams(m)]));
      SoleEntryOf(m.field, EncodeMatchParams(m));
    case KnnQ(k) =>
      SoleEntryOf("knn", EncodeKnn(k));
      KnnRoundTrip(k);
  }

  lemma ClausesRoundTrip(cs: seq<Clause>)
    ensures DecodeClauses(EncodeClauses(cs)) == Some(cs)
  {
    forall c ensures DecodeClause(EncodeClause(c)) == Some(c) {
      ClauseRoundTrip(c);
    }
    ItemsRoundTrip(EncodeClause, DecodeClause, cs);
  }

  lemma BoolRoundTrip(q: BoolQuery)
    ensures DecodeBool(EncodeBool(q)) == Some(q)
  {
    ClausesRoundTrip(q.filter);
    if q.must.Some? { ClausesRoundTrip(q.must.value); }
    if q.should.Some? { ClausesRoundTrip(q.should.value); }
  }

  lemma BodyMembers(b: SearchBody)
    ensures Member(EncodeBody(b), "size") == Some(Int(b.size))
    ensures Member(EncodeBody(b), "query") == Some(EncodeBool(b.query))
    ensures Member(EncodeBody(b), "_source") == if b.source.Some? then Some(Arr(ArrayOf(StrJson, b.source.value))) else None
    ensures Member(EncodeBody(b), "rank") == if b.rank.Some? then Some(EncodeRrf(b.rank.value)) else None
  {
  }

  lemma SourceRoundTrip(b: SearchBody)
    ensures OptionalAs(DecodeStrings, EncodeBody(b), "_source") == Some(b.source)
  {
    BodyMembers(b);
    if b.source.Some? {
      StringsRoundTrip(b.source.value);
    }
  }

  lemma RankRoundTrip(b: SearchBody)
    ensures OptionalAs(DecodeRrf, EncodeBody(b), "rank") == Some(b.rank)
  {
    BodyMembers(b);
  }

  /** Every typed body is recovered exactly from the JSON sent to the store. */
  lemma BodyRoundTrip(b: SearchBody)
    ensures DecodeBody(EncodeBody(b)) == Some(b)
  {
    BodyMembers(b);
    BoolRoundTrip(b.query);
    SourceRoundTrip(b);
    RankRoundTrip(b);
  }
}

=== FILE: request_bodies.dfy ===
/** The three search bodies app/elastic_memory.py builds (plain kNN, hybrid
    with reciprocal rank fusion, and the hybrid fallback without fusion), and
    the shape every one of them keeps: the tenant filter, one pool size used
    consistently, and a candidate count that covers the kNN `k`. */
module RequestBodies {
  import opened Wrappers
  import opened QueryBody

  const TenantField := "project_id"
  const TextField := "text"
  const VectorField := "embedding"
  const LexicalBoost: real := 2.0
  const VectorBoost: real := 1.0
  const RankConstant := 20

  function Max(a: int, b: int): (m: int)
    ensures m >= a && m >= b
    ensures m == a || m == b
  {
    if a >= b then a else b
  }

  /** The hybrid search pool size, `max(k * 3, 15)`: never below 15 nor below 3k. */
  function PoolSize(k: int): (n: int)
    ensures n >= 15 && n >= 3 * k
    ensures n == 15 || n == 3 * k
  {
    Max(k * 3, 15)
  }

  function TenantFilter(projectId: string): seq<Clause> {
    [TermQ(TenantField, projectId)]
  }

  function KnnBody(projectId: string, queryVector: seq<real>, k: int): SearchBody {
    SearchBody(
      k,
      None,
      BoolQuery(
        TenantFilter(projectId),
        Some([KnnQ(KnnSpec(VectorField, queryVector, k, Max(20, k * 5), None))]),
        None,
        None),
      None)
  }

  function HybridBody(projectId: string, queryText: string, queryVector: seq<real>, k: int): SearchBody {
    var pool := PoolSize(k);
    SearchBody(
      pool,
      Some([TextField, "tags", TenantField]),
      BoolQuery(
        TenantFilter(projectId),
        None,
        Some([MatchQ(MatchSpec(TextField, queryText, LexicalBoost, Some("AUTO"))),
              KnnQ(KnnSpec(VectorField, queryVector, pool, Max(60, k * 10), Some(VectorBoost)))]),
        Some(1)),
      Some(Rrf(pool, RankConstant)))
  }

  function FallbackBody(projectId: string, queryText: string, queryVector: seq<real>, k: int): SearchBody {
    var pool := PoolSize(k);
    SearchBody(
      pool,
      None,
      BoolQuery(
        TenantFilter(projectId),
        None,
        Some([MatchQ(MatchSpec(TextField, queryText, LexicalBoost, None)),
              KnnQ(KnnSpec(VectorField, queryVector, pool, Max(60, k * 10), None))]),
        Some(1)),
      None)
  }

  // ---------------------------------------------------------------------
  // Shape predicates
  // ---------------------------------------------------------------------

  function KnnSpecs(cs: seq<Clause>): (ks: seq<KnnSpec>)
    ensures |ks| <= |cs|
    ensures forall c :: c in cs && c.KnnQ? ==> c.knn in ks
    ensures forall x :: x in ks ==> KnnQ(x) in cs
  {
    if cs == [] then []
    else (if cs[0].KnnQ? then [cs[0].knn] else []) + KnnSpecs(cs[1..])
  }

  /** Every kNN clause of a body, whether under `must` or under `should`. */
  function BodyKnns(b: SearchBody): seq<KnnSpec> {
    KnnSpecs(b.query.must.GetOr([])) + KnnSpecs(b.query.should.GetOr([]))
  }

  /** The only filter is the caller's tenant: `term project_id = projectId`. */
  predicate TenantScoped(b: SearchBody, projectId: string) {
    b.query.filter == [TermQ(TenantField, projectId)]
  }

  /** The top-level `size`, every kNN `k` and the fusion window agree. */
  predicate PoolConsistent(b: SearchBody) {
    && (forall x :: x in BodyKnns(b) ==> x.k == b.size)
    && (b.rank.Some? ==> b.rank.value.rankWindowSize == b.size)
  }

  /** Every kNN clause examines at least as many candidates as it returns. */
  predicate CandidatesCover(b: SearchBody) {
    forall x :: x in BodyKnns(b) ==> x.numCandidates >= x.k
  }

  predicate WellFormedFor(b: SearchBody, projectId: string) {
    TenantScoped(b, projectId) && PoolConsistent(b) && CandidatesCover(b) && BodyKnns(b) != []
  }

  /** What the fallback drops from a fused body: the `rank` stage, the
      `_source` list, fuzzy matching and the explicit kNN boost. */
  function Plain(c: Clause): Clause {
    match c
    case TermQ(_, _) => c
    case MatchQ(m) => MatchQ(m.(fuzziness := None))
    case KnnQ(k) => KnnQ(k.(boost := None))
  }

  function PlainAll(cs: seq<Clause>): (ps: seq<Clause>)
    ensures |ps| == |cs|
    ensures forall i :: 0 <= i < |cs| ==> ps[i] == Plain(cs[i])
  {
    if cs == [] then [] else [Plain(cs[0])] + PlainAll(cs[1..])
  }

  function StripFusion(b: SearchBody): SearchBody {
    var q := b.query;
    SearchBody(
      b.size,
      None,
      BoolQuery(
        q.filter,
        if q.must.Some? then Some(PlainAll(q.must.value)) else None,
        if q.should.Some? then Some(PlainAll(q.should.value)) else None,
        q.minimumShouldMatch),
      None)
  }

  /** A boost the store applies when none is written is 1.0. */
  function EffectiveBoost(b: Option<real>): real {
    b.GetOr(1.0)
  }

  // ---------------------------------------------------------------------
  // Properties
  // ---------------------------------------------------------------------

  /** The plain kNN body is tenant scoped, returns `k` hits and looks at
      `max(20, 5k)` candidates, which is never fewer than `k`. */
  lemma KnnBodyWellFormed(projectId: string, queryVector: seq<real>, k: int)
    ensures WellFormedFor(KnnBody(projectId, queryVector, k), projectId)
    ensures KnnBody(projectId, queryVector, k).size == k
    ensures KnnBody(projectId, queryVector, k).rank.None?
  {
    var b := KnnBody(projectId, queryVector, k);
    assert BodyKnns(b) == [KnnSpec(VectorField, queryVector, k, Max(20, k * 5), None)];
  }

  /** Both hybrid bodies are tenant scoped and use the pool size
      `max(3k, 15)` for `size`, kNN `k` and (primary only) the fusion
      window; `max(60, 10k)` candidates always cover that pool. */
  lemma HybridBodiesWellFormed(projectId: string, queryText: string, queryVector: seq<real>, k: int)
    ensures WellFormedFor(HybridBody(projectId, queryText, queryVector, k), projectId)
    ensures WellFormedFor(FallbackBody(projectId, queryText, queryVector, k), projectId)
    ensures HybridBody(projectId, queryText, queryVector, k).size == PoolSize(k)
    ensures FallbackBody(projectId, queryText, queryVector, k).size == PoolSize(k)
    ensures HybridBody(projectId, queryText, queryVector, k).rank == Some(Rrf(PoolSize(k), 20))
  {
    var pool := PoolSize(k);
    var h := HybridBody(projectId, queryText, queryVector, k);
    var f := FallbackBody(projectId, queryText, queryVector, k);
    assert BodyKnns(h) == [KnnSpec(VectorField, queryVector, pool, Max(60, k * 10), Some(VectorBoost))];
    assert BodyKnns(f) == [KnnSpec(VectorField, queryVector, pool, Max(60, k * 10), None)];
  }

  /** The fallback body is the primary body with fusion stripped and nothing
      else changed: same tenant filter, size, clauses and query vector. */
  lemma FallbackIsPrimaryWithoutFusion(projectId: string, queryText: string, queryVector: seq<real>, k: int)
    ensures FallbackBody(projectId, queryText, queryVector, k) == StripFusion(HybridBody(projectId, queryText, queryVector, k))
    ensures FallbackBody(projectId, queryText, queryVector, k).rank.None?
  {
    var h := HybridBody(projectId, queryText, queryVector, k);
    var f := FallbackBody(projectId, queryText, queryVector, k);
    assert PlainAll(h.query.should.value) == f.query.should.value;
  }

  /** At least one of the two `should` clauses must match: a lexical match
      of `queryText` on the text and a kNN match of `queryVector` on the
      embedding, the lexical one weighing twice as much as the vector one. */
  predicate WeighsLexicalTwice(b: SearchBody, queryText: string, queryVector: seq<real>) {
    && b.query.minimumShouldMatch == Some(1)
    && b.query.should.Some? && |b.query.should.value| == 2
    && var lexical := b.query.should.value[0];
       var vector := b.query.should.value[1];
       && lexical.MatchQ? && lexical.m.field == TextField && lexical.m.query == queryText
       && vector.KnnQ? && vector.knn.field == VectorField && vector.knn.queryVector == queryVector
       && lexical.m.boost == 2.0 * EffectiveBoost(vector.knn.boost)
  }

  /** The fused and the fallback body combine their two signals the same way. */
  lemma LexicalWeighsTwiceVector(projectId: string, queryText: string, queryVector: seq<real>, k: int)
    ensures WeighsLexicalTwice(HybridBody(projectId, queryText, queryVector, k), queryText, queryVector)
    ensures WeighsLexicalTwice(FallbackBody(projectId, queryText, queryVector, k), queryText, queryVector)
  {
  }
}

=== FILE: wrappers.dfy ===
/** Failure-carrying values shared by the whole model. A Python exception
    that propagates out of an operation becomes `Err` with its message. */
module Wrappers {

  datatype Option<+T> = None | Some(value: T) {

    /** The value, or `default` when there is none (Python's `x or default`
        for a value that is either None or present). */
    function GetOr(default: T): T {
      match this
      case Some(v) => v
      case None => default
    }
  }

  datatype Result<+T> = Ok(value: T) | Err(error: string)
}
